=== FILE: README.md ===
# steamutils catalog and cleanup, modelled in Dafny

This project models the shared core of two command-line tools for a local
Steam installation. `listgames.py` builds a catalog of installed games: it
checks the installation root, picks the `appmanifest_*.acf` files, parses
each one into a key/value dict, derives the install path and manifest path,
sorts by name, and optionally filters by a search query. `cleanfiles.py`
reconciles that catalog with the disk. It flags *orphan manifests* (games
whose install directory is gone) and *orphan directories* (directories under
`steamapps/common` that no game claims). Each flagged item is offered for
deletion behind a yes/no prompt.

The filesystem is abstract. It is given as a set of directory paths, a set
of existing paths, the directory listings as sequences in discovery order,
and a map from file path to the file's lines. `os.path.abspath(steamdir)`
is a parameter (`root`). The user's replies are a function from prompt
number to reply. Deleting is modelled as the list of paths whose deletion
was confirmed.

Modules, one per component:

- `Wrappers`: `Option` and `Result`. Python exceptions become `Failure`.
- `Text`: ASCII `lower`, `startswith`/`endswith`, substring `in`,
  Python string ordering, and two-argument `posixpath.join`.
- `Seqs`: order-preserving filtering and subsequences.
- `Tokenizer`: `re.findall(r'"(.*?)"', line)`.
- `ManifestParser`: the line loop that builds one manifest dict.
- `Ordering`: the stable sort by `name`.
- `Catalog`: `list_games`.
- `SearchFilter`: the `--search` filter of `listgames.py`.
- `Reconcile`: the two passes of `cleanfiles.py`.
- `Cleanup`: `confirm_delete`, the scan as written and corrected, and the
  prompt decisions.

Behaviour of the code worth noting:

- The root check raises only when *both* `steamapps` and `steamapps/common`
  are missing (`and`, listgames.py:17). It does not raise when either one
  is missing.
- A manifest without `installdir` raises KeyError and aborts the listing.
  It is not skipped with a warning.
- There is no empty-catalog error: zero manifests give an empty list.
- The sort is case-sensitive, by code point, on `name` only, with no app-id
  tie-break. A game without `name` raises KeyError at the sort.
- Search results keep catalog order. The app id is read only when the name
  does not match, so a missing `appid` raises KeyError only in that case.
- No field is validated or converted: `SizeOnDisk` stays a string and is
  not required.

## Model

| member | source | states |
|---|---|---|
| `Text.ContainsIff` | listgames.py:87 | Python's substring test holds exactly when the needle occurs at some index of the haystack; the empty string occurs in every string |
| `Text.JoinDirectChild` | listgames.py:15-16 | joining a plain name onto a directory path without a trailing `/` inserts exactly one `/` and yields a direct child of that directory |
| `Text.StrLeTotal` | listgames.py:40 | any two names are comparable under Python's string order, so the sort key is total |
| `Text.StrLeTrans` | listgames.py:40 | Python's string order on names is transitive |
| `Seqs.Filter` | listgames.py:85-89 | an item is kept exactly when it is in the input and passes the test; the kept items form an order-preserving subsequence of the input, no longer than it |
| `Seqs.FilterCount` | listgames.py:85-89 | every passing item is kept as many times as it occurs in the input and no failing item is kept, which with the subsequence clause fixes the result |
| `Text.Lower` | listgames.py:87 | lower-casing keeps the length, leaves no capital letter, keeps every character that is not a capital, and turns each capital into the small letter at the same place in the alphabet |
| `Text.LowerIdempotent` | listgames.py:87 | lower-casing an already lower-cased string changes nothing |
| `Text.Join` | listgames.py:15-16 | an absolute second part replaces the first; otherwise the result begins with the first part and ends with the second |
| `Tokenizer.CloseFrom` | listgames.py:30 | the lazy `.*?` stops at the first `"` after the opening quote; there is no match when a line feed or the end of the line comes first |
| `Tokenizer.Tokens` | listgames.py:30 | no captured string contains a `"` or a line feed |
| `Tokenizer.TokenCount` | listgames.py:30 | a line with k quote characters (line feed only at its end) yields exactly k/2 strings, rounded down |
| `Tokenizer.QuotedToken` | listgames.py:30 | a quoted string without quotes or line feeds is captured whole, and scanning resumes right after its closing quote |
| `Tokenizer.RenderRoundTrip` | listgames.py:30-32 | scanning a manifest leaf line `<indent>"key"<tab><tab>"value"` gives back exactly `[key, value]` |
| `ManifestParser.ApplyLine` | listgames.py:30-33 | a line changes the dict only if it yields exactly two strings; such a line stores its second string under its first; keys the line does not store keep their values; the key set grows by at most the line's key |
| `ManifestParser.ParseKeys` | listgames.py:27-33 | a key is in the parsed dict exactly when some line yields a pair with that key |
| `ManifestParser.ParseLastWins` | listgames.py:27-33 | the stored value is the one from the last line that stores the key |
| `ManifestParser.HeaderLineIgnored` | listgames.py:30-31 | a line with fewer than four or more than five quote characters, such as a brace or a section header, leaves the dict unchanged |
| `ManifestParser.ParseIgnoresTrailing` | listgames.py:28-33 | appending lines that yield no pair does not change the parse |
| `Ordering.Insert` | listgames.py:40 | inserting into a name-sorted list keeps it sorted and adds exactly the one game |
| `Ordering.SortByName` | listgames.py:40 | the result is a permutation of the input, sorted non-decreasing by name |
| `Ordering.SortStable` | listgames.py:40 | for every name, the games carrying it appear in the output in their input order |
| `Catalog.RootInvalidIffNoSteamApps` | listgames.py:15-18 | when `common` being a directory implies `steamapps` is one, the root check fails exactly when `steamapps` is missing |
| `Catalog.ManifestNameIff` | listgames.py:21 | the glob test accepts a name exactly when it is `appmanifest_<id>.acf` for some `<id>`, which may be empty |
| `Catalog.Discover` | listgames.py:21 | the selected paths are the `steamapps` entries matching the pattern, joined onto `steamapps`, one per matching entry, and none when `steamapps` is not a directory; the paths come in the order of the `steamapps` listing |
| `Catalog.BuildGame` | listgames.py:26-37 | fails with KeyError `installdir` exactly when the parsed file lacks it; otherwise `installdir` is the common dir joined with the raw value, `manifest` is the file path even when the file has its own `manifest` key, and every other key keeps its parsed value |
| `Catalog.LoadOutcome` | listgames.py:25-37 | an unreadable file raises OSError on its path; a file whose parse lacks `installdir` raises KeyError `installdir`; otherwise the game has both derived paths, `manifest` being the file path and `installdir` the raw value joined onto `common` |
| `Catalog.LoadAll` | listgames.py:24-38 | succeeds exactly when every file loads, giving one game per file in discovery order; otherwise the error is that of the first failing file |
| `Catalog.ListGames` | listgames.py:12-40 | the invalid-directory error is raised exactly when neither directory exists; success requires every file to load and every game to have a name; a successful result holds one game per discovered file, is a permutation of the loaded games, is sorted by name, keeps games of equal name in discovery order, and every game has an install path and a manifest path that is a discovered file; a failed load raises the first failing file's error, and a loaded game without a name raises KeyError `name` |
| `Catalog.MissingInstallDirAborts` | listgames.py:25-36 | one discovered manifest that cannot be read or has no `installdir` makes the whole listing fail instead of being skipped |
| `SearchFilter.Test` | listgames.py:87 | a game is kept when the lower-cased query is in the lower-cased name or the query is in the app id; KeyError `name` arises for a missing name, KeyError `appid` only for a missing app id when the name does not match |
| `SearchFilter.Search` | listgames.py:84-89 | succeeds exactly when no game's test raises; the result is the games passing the test, in catalog order; a failure is the KeyError of the first game whose test raises |
| `SearchFilter.SearchKeepsMatches` | listgames.py:84-89 | a successful search keeps exactly the games whose name matches case-insensitively or whose app id contains the query, as an order-preserving subsequence |
| `SearchFilter.EmptyQueryKeepsAll` | listgames.py:87 | with all names present, the empty query returns the whole catalog, even games without an app id |
| `SearchFilter.SearchByNameExample` | listgames.py:84-89 | on "Half-Life 2" (220) and "Portal" (400), the query "half" returns only "Half-Life 2" |
| `SearchFilter.SearchByAppIdExample` | listgames.py:84-89 | on the same catalog, the query "400" returns only "Portal" |
| `Reconcile.OrphanManifests` | cleanfiles.py:23-25 | the flagged games are exactly the games whose install path does not exist, in catalog order |
| `Reconcile.OrphanDirectories` | cleanfiles.py:28-36 | the flagged paths are exactly the joined listing entries that are directories and equal no game's install path, in listing order |
| `Reconcile.FlaggedEntry` | cleanfiles.py:29-36 | listing entry i is flagged exactly when its joined path is a directory that no game claims, so non-directories are never flagged |
| `Reconcile.OrphansDisjoint` | cleanfiles.py:23-36 | no orphan manifest's install path is also an orphan directory |
| `Reconcile.NothingFlaggedWhenConsistent` | cleanfiles.py:20-36 | when every install path exists and every listed directory is some game's install path, both passes flag nothing |
| `Reconcile.MismatchedPrefixFlagsAll` | cleanfiles.py:28-33 | when the listing is joined onto a different directory than the one holding every install path, every listed directory is flagged |
| `Cleanup.Accepts` | cleanfiles.py:41 | a reply is accepted exactly when it is `y` or `yes` in any mix of cases |
| `Cleanup.AcceptsExamples` | cleanfiles.py:41 | `y`, `Y`, `yes`, `YES` and `yEs` are accepted; `ye`, `no`, the empty reply and `yes ` are rejected |
| `Cleanup.Scan` | cleanfiles.py:20-36 | orphan manifests are the games whose install path does not exist, in catalog order; the listing fails, with OSError on `<steamdir>/steamapps/common`, exactly when that path is not a directory; otherwise orphan directories are computed with the listing joined onto the raw `steamdir` |
| `Cleanup.ScanFlagsEveryDirectory` | cleanfiles.py:28-33 | when the raw common dir differs from the catalog's, every listed directory is flagged, installed games included |
| `Cleanup.RelativeSteamDirFlagsInstalledGame` | cleanfiles.py:28-33 | run with `Steam` from `/home/user`, the installed game Portal has its directory flagged |
| `Cleanup.ScanFixed` | cleanfiles.py:28 | the corrected scan joins the listing onto the same absolute root as the catalog; orphan manifests and the listing error are as in the scan as written |
| `Cleanup.ScanFixedKeepsInstalledGames` | cleanfiles.py:28-33 | with the shared root, the directory named by a catalogued manifest's `installdir` is never flagged |
| `Cleanup.Confirmed` | cleanfiles.py:41-55 | the confirmed items are a subsequence of the prompted items; an item whose prompt got an accepting reply is included; every included item had an accepting reply |
| `Cleanup.Decide` | cleanfiles.py:23-55 | a manifest file is deleted exactly when its game's prompt is accepted; the directories deleted are an order-preserving subsequence of the orphan directories, and a directory is deleted exactly when its prompt, asked after all manifest prompts, is accepted; nothing is deleted from a listing that failed |
| `Cleanup.DirectoryPlanIgnoresManifestAnswers` | cleanfiles.py:20-36 | replies to manifest prompts cannot change which directories are deleted |

## Findings

| source | as written | input that shows it | evidently intended | confidence | as-written member | corrected member |
|---|---|---|---|---|---|---|
| cleanfiles.py:28 | the listing is joined onto `steamdir` as typed, but the catalog's install paths are joined onto `os.path.abspath(steamdir)` (listgames.py:15), and the two are compared with `==` | `cleanfiles.py Steam` run from `/home/user` with Portal installed: `Steam/steamapps/common/Portal` never equals `/home/user/Steam/steamapps/common/Portal`, so Portal's directory is offered for deletion | both sides built from the same absolute root, so an installed game's directory is never flagged | high; not executed | `Cleanup.RelativeSteamDirFlagsInstalledGame` | `Cleanup.ScanFixedKeepsInstalledGames` |

`Cleanup.Scan` models the code as written. `Cleanup.ScanFixed` is the
corrected scan. `Cleanup.Decide` works on the report of either one.

## Left out

- searchdb.py: HTTP requests and HTML scraping through foreign libraries.
- `format_size` (listgames.py:62-69): float division and float formatting.
- `print_games`, `print_detailed_games`, argparse handling and the printing
  of caught exceptions: presentation and command-line glue.
- Real I/O is replaced by parameters: file reading, `glob` ordering,
  `os.path.abspath`, `os.path.exists`/`isdir`, `os.listdir`, `os.remove`,
  `shutil.rmtree` and `input()`. A file that cannot be decoded is not
  modelled; its contents are given as lines.
- The filesystem is one snapshot for a whole run: a deletion is not fed
  back into the checks on later items. The source's later checks do see
  it. When a later entry of `common` is a symbolic link into a directory
  already removed, `os.path.isdir` (cleanfiles.py:31) is false and the
  source skips it, while the model still flags and prompts it, so later
  replies pair with shifted prompt numbers. The same holds in the manifest
  pass when a later game's install path is, or links to, a manifest file
  removed earlier.
- `str.lower` is modelled for ASCII letters only. Full Unicode case mapping
  is not modelled.
- `os.path.join` is modelled for two arguments, as `posixpath.join`
  defines it. The three-argument join of cleanfiles.py:28 is modelled as
  two nested joins (`CommonDir`), which is what `posixpath.join` computes.
  No path normalisation is done, which matches the source.
- Catalog.Discover: the directory part of the glob pattern is taken
  literally. `glob` treats `*`, `?` and `[` in `<root>/steamapps` as
  pattern characters too, so a root such as `/mnt/Games[SSD]/Steam` finds
  no manifests and gives an empty catalog, after which the directory pass
  of cleanfiles.py flags every directory under `common`. Modelling `fnmatch`
  over directory names is out of scope.
- Replies are a total function of the prompt number. End of input and
  KeyboardInterrupt during `input()` are not modelled.
- Cleanup.Decide: the contract states which manifest files are deleted,
  not the order of the deletions.
- Cleanup.Decide: deletions are assumed to succeed. A failing `os.remove`
  or `shutil.rmtree` raises OSError, which cleanfiles.py:59-62 catches, so
  the run ends before any later prompt; the plan does not model that cut.

=== FILE: catalog.dfy ===
/** `list_games(steamdir)` (listgames.py:12-40) over an abstract filesystem:
    the set of directory paths, the discovery-order listing of the steamapps
    directory, and the lines of every readable file. `os.path.abspath` is
    not computed: the caller supplies its result as `root`. */
module Catalog {
  import opened Wrappers
  import opened Text
  import opened Seqs
  import opened ManifestParser
  import opened Ordering

  /** The exceptions list_games can raise: ValueError for the root check,
      OSError when a path cannot be opened or listed, KeyError for a missing key. */
  datatype Error = InvalidSteamDir | IOFailed(path: string) | MissingKey(key: string)

  function SteamApps(root: string): string
  {
    Join(root, "steamapps")
  }

  function CommonDir(root: string): string
  {
    Join(SteamApps(root), "common")
  }

  /** The root check raises only when neither directory exists. */
  predicate RootInvalid(root: string, dirs: set<string>)
  {
    SteamApps(root) !in dirs && CommonDir(root) !in dirs
  }

  /** Since `common` lives inside `steamapps`, in a filesystem where a
      directory's parent is a directory the check fails exactly when
      `steamapps` is missing. */
  lemma RootInvalidIffNoSteamApps(root: string, dirs: set<string>)
    requires CommonDir(root) in dirs ==> SteamApps(root) in dirs
    ensures RootInvalid(root, dirs) <==> SteamApps(root) !in dirs
  {
  }

  /** The file name `appmanifest_<id>.acf`. */
  function ManifestFileName(id: string): string
  {
    "appmanifest_" + id + ".acf"
  }

  /** The glob pattern `appmanifest_*.acf` matches `name`. */
  predicate IsManifestName(name: string)
  {
    16 <= |name| && StartsWith(name, "appmanifest_") && EndsWith(name, ".acf")
  }

  /** The glob test accepts exactly the names of the form
      `appmanifest_<id>.acf`, `<id>` possibly empty. */
  lemma ManifestNameIff(name: string)
    ensures IsManifestName(name) <==> exists id :: name == ManifestFileName(id)
  {
    if IsManifestName(name) {
      var id := name[12..|name| - 4];
      assert name == name[..12] + id + name[|name| - 4..];
      assert name == ManifestFileName(id);
    }
    if id :| name == ManifestFileName(id) {
      assert name[..12] == "appmanifest_";
      assert name[|name| - 4..] == ".acf";
    }
  }

  /** The paths glob returns, in discovery order (the order of the
      `steamapps` listing); glob on a missing directory returns nothing. The
      directory part of the pattern is taken literally. */
  function Discover(root: string, dirs: set<string>, entries: seq<string>): (r: seq<string>)
    ensures SteamApps(root) !in dirs ==> r == []
    ensures |r| == (if SteamApps(root) in dirs then |Filter(entries, IsManifestName)| else 0)
    ensures forall p :: p in r <==>
      SteamApps(root) in dirs && exists e :: e in entries && IsManifestName(e) && p == Join(SteamApps(root), e)
    ensures IsSubsequence(r, Apply(entries, Under(SteamApps(root))))
  {
    if SteamApps(root) !in dirs then []
    else
      var names := Filter(entries, IsManifestName);
      var r := Apply(names, Under(SteamApps(root)));
      SubsequenceApply(names, entries, Under(SteamApps(root)));
      ApplyMembers(names, Under(SteamApps(root)));
      r
  }

  /** One manifest file turned into a game dict (listgames.py:26-37):
      `installdir` becomes the install path under `common`, `manifest`
      becomes the file path (overriding any `manifest` key of the file), and
      a manifest without `installdir` raises KeyError. */
  function BuildGame(path: string, lines: seq<string>, common: string): (r: Result<Game, Error>)
    ensures r.Failure? <==> "installdir" !in Parse(lines)
    ensures r.Failure? ==> r.error == MissingKey("installdir")
    ensures r.Success? ==> r.value.Keys == Parse(lines).Keys + {"manifest"}
    ensures r.Success? ==> r.value["installdir"] == Join(common, Parse(lines)["installdir"])
    ensures r.Success? ==> r.value["manifest"] == path
    ensures r.Success? ==> forall k :: k in Parse(lines) && k != "installdir" && k != "manifest" ==>
      r.value[k] == Parse(lines)[k]
  {
    var m := Parse(lines);
    if "installdir" !in m then Failure(MissingKey("installdir"))
    else Success(m["installdir" := Join(common, m["installdir"])]["manifest" := path])
  }

  /** Opening and parsing one discovered file; a path with no readable
      contents raises OSError. */
  function Load(path: string, files: map<string, seq<string>>, common: string): Result<Game, Error>
  {
    if path !in files then Failure(IOFailed(path)) else BuildGame(path, files[path], common)
  }

  /** What loading one file gives: OSError for an unreadable file, KeyError
      `installdir` for a file that lacks it, and otherwise a game carrying
      both derived paths. */
  lemma LoadOutcome(path: string, files: map<string, seq<string>>, common: string)
    ensures Load(path, files, common).Failure? <==> path !in files || "installdir" !in Parse(files[path])
    ensures Load(path, files, common).Failure? ==>
      Load(path, files, common).error == if path in files then MissingKey("installdir") else IOFailed(path)
    ensures Load(path, files, common).Success? ==>
      && Complete(Load(path, files, common).value)
      && Load(path, files, common).value["manifest"] == path
      && Load(path, files, common).value["installdir"] == Join(common, Parse(files[path])["installdir"])
  {
  }

  /** The loop over discovered files: one game per file in discovery order,
      or the error of the first file that fails. */
  function LoadAll(paths: seq<string>, files: map<string, seq<string>>, common: string): (r: Result<seq<Game>, Error>)
    ensures r.Success? <==> forall i :: 0 <= i < |paths| ==> Load(paths[i], files, common).Success?
    ensures r.Success? ==> |r.value| == |paths|
    ensures r.Success? ==> forall i :: 0 <= i < |paths| ==> Load(paths[i], files, common) == Success(r.value[i])
    ensures r.Failure? ==> exists i :: 0 <= i < |paths| && Load(paths[i], files, common) == Failure(r.error) &&
                                       forall j :: 0 <= j < i ==> Load(paths[j], files, common).Success?
    decreases |paths|
  {
    if |paths| == 0 then Success([])
    else match Load(paths[0], files, common)
      case Failure(e) => Failure(e)
      case Success(g) =>
        match LoadAll(paths[1..], files, common)
        case Failure(e) =>
          assert forall i :: 1 <= i < |paths| ==> paths[i] == paths[1..][i - 1];
          Failure(e)
        case Success(gs) =>
          assert forall i :: 1 <= i < |paths| ==> paths[i] == paths[1..][i - 1];
          Success([g] + gs)
  }

  /** Every game of a loaded catalog carries its install path and manifest
      path. */
  predicate Complete(g: Game)
  {
    "installdir" in g && "manifest" in g
  }

  /** The discovered files of a Steam root, loaded in discovery order. */
  function Loaded(root: string, dirs: set<string>, entries: seq<string>, files: map<string, seq<string>>)
    : Result<seq<Game>, Error>
  {
    LoadAll(Discover(root, dirs, entries), files, CommonDir(root))
  }

  /** `list_games` over the abstract filesystem. */
  function ListGames(root: string, dirs: set<string>, entries: seq<string>, files: map<string, seq<string>>)
    : (r: Result<seq<Game>, Error>)
    ensures r == Failure(InvalidSteamDir) <==> RootInvalid(root, dirs)
    ensures r.Success? <==>
      && !RootInvalid(root, dirs)
      && Loaded(root, dirs, entries, files).Success?
      && AllNamed(Loaded(root, dirs, entries, files).value)
    ensures r.Success? ==>
      && |r.value| == |Discover(root, dirs, entries)|
      && multiset(r.value) == multiset(Loaded(root, dirs, entries, files).value)
      && AllNamed(r.value) && SortedByName(r.value)
      && forall g :: g in r.value ==> Complete(g) && g["manifest"] in Discover(root, dirs, entries)
    ensures r.Success? ==> forall k :: Filter(r.value, NamedAs(k)) == Filter(Loaded(root, dirs, entries, files).value, NamedAs(k))
    ensures !RootInvalid(root, dirs) && Loaded(root, dirs, entries, files).Failure? ==>
      r == Failure(Loaded(root, dirs, entries, files).error)
    ensures !RootInvalid(root, dirs) && Loaded(root, dirs, entries, files).Success? ==>
      !AllNamed(Loaded(root, dirs, entries, files).value) ==> r == Failure(MissingKey("name"))
  {
    if RootInvalid(root, dirs) then Failure(InvalidSteamDir)
    else
      var found := Discover(root, dirs, entries);
      match LoadAll(found, files, CommonDir(root))
      case Failure(e) =>
        LoadErrorNotRoot(found, files, CommonDir(root));
        Failure(e)
      case Success(games) =>
        if !AllNamed(games) then Failure(MissingKey("name"))
        else
          SortedGamesComplete(found, files, CommonDir(root), games);
          Success(SortByName(games))
  }

  /** Loading never raises the invalid-directory error. */
  lemma LoadErrorNotRoot(paths: seq<string>, files: map<string, seq<string>>, common: string)
    requires LoadAll(paths, files, common).Failure?
    ensures LoadAll(paths, files, common).error != InvalidSteamDir
  {
    var e := LoadAll(paths, files, common).error;
    var i :| 0 <= i < |paths| && Load(paths[i], files, common) == Failure(e);
  }

  /** Sorting the loaded games keeps one complete game per discovered file,
      and games sharing a name stay in discovery order. */
  lemma SortedGamesComplete(paths: seq<string>, files: map<string, seq<string>>, common: string, games: seq<Game>)
    requires LoadAll(paths, files, common) == Success(games) && AllNamed(games)
    ensures |SortByName(games)| == |paths|
    ensures forall g :: g in SortByName(games) ==> Complete(g) && g["manifest"] in paths
    ensures forall k :: Filter(SortByName(games), NamedAs(k)) == Filter(games, NamedAs(k))
  {
    forall k ensures Filter(SortByName(games), NamedAs(k)) == Filter(games, NamedAs(k)) {
      SortStable(games, k);
    }
    var sorted := SortByName(games);
    forall g | g in sorted ensures Complete(g) && g["manifest"] in paths {
      assert g in multiset(sorted);
      assert g in games;
      var i :| 0 <= i < |games| && games[i] == g;
      assert Load(paths[i], files, common) == Success(g);
    }
    assert |sorted| == |multiset(sorted)| == |games|;
  }

  /** A discovered manifest that cannot be read, or has no `installdir`, is
      not skipped: it makes the whole listing fail. */
  lemma MissingInstallDirAborts(root: string, dirs: set<string>, entries: seq<string>,
                                files: map<string, seq<string>>, path: string)
    requires path in Discover(root, dirs, entries)
    requires Load(path, files, CommonDir(root)).Failure?
    ensures ListGames(root, dirs, entries, files).Failure?
  {
  }
}

=== FILE: cleanup.dfy ===
/** cleanfiles.py's main and confirm_delete (lines 16-41): the game list is
    read once, the two reconciliation passes run over it, and every flagged
    item is surfaced as one yes/no prompt, manifests first. Deleting is
    modelled as the list of paths whose deletion the user confirmed; the
    user's replies are a parameter, indexed by prompt number. */
module Cleanup {
  import opened Wrappers
  import opened Text
  import opened Seqs
  import opened Ordering
  import opened Catalog
  import opened Reconcile

  /** confirm_delete: the reply lower-cased is `yes` or `y`. The accepted
      replies are exactly `y` and `yes` in any mix of cases. */
  predicate Accepts(answer: string): (r: bool)
    ensures r <==>
      || (|answer| == 1 && answer[0] in "yY")
      || (|answer| == 3 && answer[0] in "yY" && answer[1] in "eE" && answer[2] in "sS")
  {
    Lower(answer) == "yes" || Lower(answer) == "y"
  }

  lemma AcceptsExamples()
    ensures Accepts("y") && Accepts("Y") && Accepts("yes") && Accepts("YES") && Accepts("yEs")
    ensures !Accepts("ye") && !Accepts("no") && !Accepts("") && !Accepts("yes ")
  {
  }

  /** What the two passes flag. Listing the common directory raises OSError
      when it is not a directory; that happens after the first pass. */
  datatype Report = Report(orphanManifests: seq<Game>, orphanDirectories: Result<seq<string>, Error>)

  /** The passes as cleanfiles.py:20-36 writes them: the listing is joined
      onto `steamdir` as typed on the command line, while the catalog's
      install paths were joined onto its absolute form. */
  function Scan(games: seq<Game>, steamdir: string, existing: set<string>, entries: seq<string>, dirs: set<string>)
    : (r: Report)
    requires AllInstalled(games)
    ensures r.orphanManifests == OrphanManifests(games, existing)
    ensures forall g :: g in r.orphanManifests <==> g in games && g["installdir"] !in existing
    ensures r.orphanDirectories.Failure? <==> CommonDir(steamdir) !in dirs
    ensures r.orphanDirectories.Failure? ==> r.orphanDirectories.error == IOFailed(CommonDir(steamdir))
    ensures r.orphanDirectories.Success? ==>
      r.orphanDirectories.value == OrphanDirectories(games, CommonDir(steamdir), entries, dirs)
  {
    var common := CommonDir(steamdir);
    Report(OrphanManifests(games, existing),
           if common !in dirs then Failure(IOFailed(common))
           else Success(OrphanDirectories(games, common, entries, dirs)))
  }

  /** With a relative `steamdir` (or any spelling other than its absolute
      form) the listing prefix differs from the catalog's, and every
      directory in the listing is flagged, installed games included. */
  lemma ScanFlagsEveryDirectory(games: seq<Game>, steamdir: string, root: string, existing: set<string>,
                                entries: seq<string>, dirs: set<string>)
    requires AllInstalled(games)
    requires CommonDir(steamdir) != CommonDir(root) && CommonDir(steamdir) in dirs
    requires forall g :: g in games ==> DirectChild(CommonDir(root), g["installdir"])
    requires forall e :: e in entries ==> '/' !in e
    ensures Scan(games, steamdir, existing, entries, dirs).orphanDirectories
      == Success(Filter(Paths(CommonDir(steamdir), entries), p => p in dirs))
  {
    var common := CommonDir(steamdir);
    assert common == Join(SteamApps(steamdir), "common");
    assert |common| > 0 && common[|common| - 1] != '/';
    MismatchedPrefixFlagsAll(games, CommonDir(root), common, entries, dirs);
  }

  /** Concrete instance: run as `cleanfiles.py Steam` from `/home/user`,
      the installed game Portal has its directory flagged. */
  lemma RelativeSteamDirFlagsInstalledGame()
    ensures
      var portal := map["name" := "Portal",
                        "installdir" := "/home/user/Steam/steamapps/common/Portal",
                        "manifest" := "/home/user/Steam/steamapps/appmanifest_400.acf"];
      var dirs := {"/home/user/Steam/steamapps/common/Portal", "Steam/steamapps/common",
                   "Steam/steamapps/common/Portal"};
      && portal["installdir"] == Join(CommonDir("/home/user/Steam"), "Portal")
      && portal["installdir"] in dirs
      && Scan([portal], "Steam", dirs, ["Portal"], dirs).orphanDirectories
           == Success(["Steam/steamapps/common/Portal"])
  {
    var portal := map["name" := "Portal",
                      "installdir" := "/home/user/Steam/steamapps/common/Portal",
                      "manifest" := "/home/user/Steam/steamapps/appmanifest_400.acf"];
    var dirs := {"/home/user/Steam/steamapps/common/Portal", "Steam/steamapps/common",
                 "Steam/steamapps/common/Portal"};
    RelativeCommon();
    AbsoluteCommon();
    JoinPortal();
    PortalFlagged(portal, dirs);
  }

  lemma PortalFlagged(portal: Game, dirs: set<string>)
    requires portal == map["name" := "Portal",
                           "installdir" := "/home/user/Steam/steamapps/common/Portal",
                           "manifest" := "/home/user/Steam/steamapps/appmanifest_400.acf"]
    requires dirs == {"/home/user/Steam/steamapps/common/Portal", "Steam/steamapps/common",
                      "Steam/steamapps/common/Portal"}
    ensures Scan([portal], "Steam", dirs, ["Portal"], dirs).orphanDirectories
      == Success(["Steam/steamapps/common/Portal"])
  {
    var flagged := "Steam/steamapps/common/Portal";
    RelativeCommon();
    JoinPortal();
    assert portal["installdir"] != flagged;
    assert !Claimed([portal], flagged);
    var ps := Paths("Steam/steamapps/common", ["Portal"]);
    assert ps == [flagged];
    assert Unclaimed([portal], dirs)(flagged);
    assert ps[1..] == [];
    assert Filter(ps, Unclaimed([portal], dirs)) == [flagged];
  }

  lemma RelativeCommon()
    ensures CommonDir("Steam") == "Steam/steamapps/common"
  {
  }

  lemma AbsoluteCommon()
    ensures CommonDir("/home/user/Steam") == "/home/user/Steam/steamapps/common"
  {
  }

  lemma JoinPortal()
    ensures Join("Steam/steamapps/common", "Portal") == "Steam/steamapps/common/Portal"
    ensures Join("/home/user/Steam/steamapps/common", "Portal") == "/home/user/Steam/steamapps/common/Portal"
  {
    JoinDirectChild("Steam/steamapps/common", "Portal");
    JoinDirectChild("/home/user/Steam/steamapps/common", "Portal");
  }

  /** The passes with the listing joined onto the same absolute root the
      catalog used. */
  function ScanFixed(games: seq<Game>, root: string, existing: set<string>, entries: seq<string>, dirs: set<string>)
    : (r: Report)
    requires AllInstalled(games)
    ensures r.orphanManifests == OrphanManifests(games, existing)
    ensures forall g :: g in r.orphanManifests <==> g in games && g["installdir"] !in existing
    ensures r.orphanDirectories.Failure? <==> CommonDir(root) !in dirs
    ensures r.orphanDirectories.Failure? ==> r.orphanDirectories.error == IOFailed(CommonDir(root))
    ensures r.orphanDirectories.Success? ==>
      r.orphanDirectories.value == OrphanDirectories(games, CommonDir(root), entries, dirs)
  {
    Scan(games, root, existing, entries, dirs)
  }

  /** With the shared prefix, the directory named by a catalogued game's
      manifest is never flagged, however the root was typed. */
  lemma ScanFixedKeepsInstalledGames(games: seq<Game>, root: string, existing: set<string>,
                                     entries: seq<string>, dirs: set<string>,
                                     path: string, lines: seq<string>, g: Game, i: nat)
    requires AllInstalled(games) && g in games
    requires BuildGame(path, lines, CommonDir(root)) == Success(g)
    requires i < |entries| && "installdir" in ManifestParser.Parse(lines)
    requires ManifestParser.Parse(lines)["installdir"] == entries[i]
    requires ScanFixed(games, root, existing, entries, dirs).orphanDirectories.Success?
    ensures Join(CommonDir(root), entries[i]) !in ScanFixed(games, root, existing, entries, dirs).orphanDirectories.value
  {
  }

  /** Which prompts got an accepting reply, prompt k receiving `answer(k)`. */
  function Replies(answer: nat -> string): nat -> bool
  {
    (k: nat) => Accepts(answer(k))
  }

  /** The items whose prompt, numbered from `first`, was accepted (`yes(k)`
      for prompt k), in prompt order. */
  function Confirmed<T(==,!new)>(items: seq<T>, yes: nat -> bool, first: nat): (r: seq<T>)
    ensures IsSubsequence(r, items)
    ensures forall i :: 0 <= i < |items| && yes(first + i) ==> items[i] in r
    ensures forall x :: x in r ==> exists i :: 0 <= i < |items| && items[i] == x && yes(first + i)
    decreases |items|
  {
    if |items| == 0 then []
    else
      var rest := Confirmed(items[1..], yes, first + 1);
      assert forall i :: 1 <= i < |items| ==> items[i] == items[1..][i - 1];
      assert items == [items[0]] + items[1..];
      SubsequenceCons(rest, items[0], items[1..]);
      if yes(first) then [items[0]] + rest else rest
  }

  /** The deletions the user confirmed: manifest files, then directories. */
  datatype Plan = Plan(manifests: seq<string>, directories: seq<string>)

  predicate AllWithManifest(games: seq<Game>)
  {
    forall g :: g in games ==> "manifest" in g
  }

  /** delete_manifest / delete_directory for every flagged item in order,
      prompt k receiving reply `answer(k)`. */
  function Decide(report: Report, answer: nat -> string): (r: Plan)
    requires AllWithManifest(report.orphanManifests)
    ensures forall p :: p in r.manifests ==>
      exists i :: 0 <= i < |report.orphanManifests| && report.orphanManifests[i]["manifest"] == p && Accepts(answer(i))
    ensures forall i :: 0 <= i < |report.orphanManifests| && Accepts(answer(i)) ==>
      report.orphanManifests[i]["manifest"] in r.manifests
    ensures report.orphanDirectories.Failure? ==> r.directories == []
    ensures report.orphanDirectories.Success? ==> IsSubsequence(r.directories, report.orphanDirectories.value)
    ensures report.orphanDirectories.Success? ==> forall j :: 0 <= j < |report.orphanDirectories.value| ==>
      (Accepts(answer(|report.orphanManifests| + j)) ==> report.orphanDirectories.value[j] in r.directories)
    ensures report.orphanDirectories.Success? ==> forall d :: d in r.directories ==>
      exists j :: 0 <= j < |report.orphanDirectories.value| && report.orphanDirectories.value[j] == d &&
                  Accepts(answer(|report.orphanManifests| + j))
  {
    var om := report.orphanManifests;
    var yes := Replies(answer);
    ConfirmedManifests(om, yes);
    Plan(ManifestFiles(Confirmed(om, yes, 0)),
         if report.orphanDirectories.Failure? then []
         else Confirmed(report.orphanDirectories.value, yes, |om|))
  }

  /** The manifest file paths of `games`, in order. */
  function ManifestFiles(games: seq<Game>): seq<string>
    requires AllWithManifest(games)
  {
    seq(|games|, k requires 0 <= k < |games| => games[k]["manifest"])
  }

  lemma ConfirmedManifests(om: seq<Game>, yes: nat -> bool)
    requires AllWithManifest(om)
    ensures AllWithManifest(Confirmed(om, yes, 0))
    ensures forall p :: p in ManifestFiles(Confirmed(om, yes, 0)) ==>
      exists i :: 0 <= i < |om| && om[i]["manifest"] == p && yes(i)
    ensures forall i :: 0 <= i < |om| && yes(i) ==> om[i]["manifest"] in ManifestFiles(Confirmed(om, yes, 0))
  {
    var kept := Confirmed(om, yes, 0);
    var files := ManifestFiles(kept);
    assert |files| == |kept| && forall k :: 0 <= k < |kept| ==> files[k] == kept[k]["manifest"];
    forall p | p in files ensures exists i :: 0 <= i < |om| && om[i]["manifest"] == p && yes(i) {
      var k :| 0 <= k < |kept| && files[k] == p;
      assert kept[k] in kept;
      var i :| 0 <= i < |om| && om[i] == kept[k] && yes(0 + i);
    }
    forall i | 0 <= i < |om| && yes(i) ensures om[i]["manifest"] in files {
      assert yes(0 + i);
      var k :| 0 <= k < |kept| && kept[k] == om[i];
      assert files[k] == om[i]["manifest"];
    }
  }

  lemma {:induction false} ConfirmedSameAnswers<T(!new)>(items: seq<T>, y1: nat -> bool, y2: nat -> bool, first: nat)
    requires forall k: nat :: first <= k < first + |items| ==> y1(k) == y2(k)
    ensures Confirmed(items, y1, first) == Confirmed(items, y2, first)
    decreases |items|
  {
    if |items| > 0 {
      ConfirmedSameAnswers(items[1..], y1, y2, first + 1);
    }
  }

  /** Replies to manifest prompts cannot change which directories are
      deleted: the directory pass works on the game list read at the start
      and its prompts come after all manifest prompts. */
  lemma DirectoryPlanIgnoresManifestAnswers(report: Report, a1: nat -> string, a2: nat -> string)
    requires AllWithManifest(report.orphanManifests)
    requires forall k :: |report.orphanManifests| <= k ==> a1(k) == a2(k)
    ensures Decide(report, a1).directories == Decide(report, a2).directories
  {
    if report.orphanDirectories.Success? {
      ConfirmedSameAnswers(report.orphanDirectories.value, Replies(a1), Replies(a2), |report.orphanManifests|);
    }
  }
}

=== FILE: manifest.dfy ===
/** The per-file loop of list_games (listgames.py:27-33): every line that
    yields exactly two quoted strings stores key -> value, a later line
    overwriting an earlier one; every other line (braces, section headers,
    lines with three or more strings) is ignored. */
module ManifestParser {
  import opened Wrappers
  import opened Tokenizer

  type Manifest = map<string, string>

  /** The key/value pair a line stores, if it yields exactly two strings. */
  function Pair(line: string): Option<(string, string)>
  {
    var ts := Tokens(line);
    if |ts| == 2 then Some((ts[0], ts[1])) else None
  }

  /** `line` stores a value under `key`. */
  predicate Defines(line: string, key: string)
  {
    Pair(line).Some? && Pair(line).value.0 == key
  }

  /** One iteration of the line loop. */
  function ApplyLine(m: Manifest, line: string): (r: Manifest)
    ensures |Tokens(line)| != 2 ==> r == m
    ensures forall k :: k in m && !Defines(line, k) ==> k in r && r[k] == m[k]
    ensures forall k :: k in r <==> k in m || Defines(line, k)
    ensures Pair(line).Some? ==> Pair(line).value.0 in r && r[Pair(line).value.0] == Pair(line).value.1
  {
    match Pair(line)
    case Some((k, v)) => m[k := v]
    case None => m
  }

  /** The manifest dict after reading `lines` in order, starting empty. */
  function Parse(lines: seq<string>): Manifest
    decreases |lines|
  {
    if |lines| == 0 then map[]
    else ApplyLine(Parse(lines[..|lines| - 1]), lines[|lines| - 1])
  }

  /** A key is present exactly when some line stores it. */
  lemma {:induction false} ParseKeys(lines: seq<string>, key: string)
    ensures key in Parse(lines) <==> exists i :: 0 <= i < |lines| && Defines(lines[i], key)
    decreases |lines|
  {
    if |lines| > 0 {
      var init := lines[..|lines| - 1];
      ParseKeys(init, key);
      if i :| 0 <= i < |init| && Defines(init[i], key) {
        assert lines[i] == init[i];
      }
      if i :| 0 <= i < |lines| && Defines(lines[i], key) {
        if i < |init| {
          assert init[i] == lines[i];
        }
      }
    }
  }

  /** Last write wins: the stored value comes from the last line that stores
      the key. */
  lemma {:induction false} ParseLastWins(lines: seq<string>, key: string, i: nat)
    requires i < |lines| && Defines(lines[i], key)
    requires forall j :: i < j < |lines| ==> !Defines(lines[j], key)
    ensures key in Parse(lines) && Parse(lines)[key] == Pair(lines[i]).value.1
    decreases |lines|
  {
    var init := lines[..|lines| - 1];
    if i < |lines| - 1 {
      assert forall j :: i < j < |init| ==> init[j] == lines[j];
      ParseLastWins(init, key, i);
    }
  }

  /** A line with fewer than four or more than five quote characters cannot
      yield exactly two strings, so section headers such as `"AppState"` and
      brace lines never change the manifest. */
  lemma HeaderLineIgnored(m: Manifest, line: string)
    requires IsLine(line)
    requires Quotes(line) < 4 || Quotes(line) > 5
    ensures ApplyLine(m, line) == m
  {
    TokenCount(line);
  }

  /** Appending lines that store nothing leaves the parse unchanged. */
  lemma {:induction false} ParseIgnoresTrailing(lines: seq<string>, extra: seq<string>)
    requires forall j :: 0 <= j < |extra| ==> Pair(extra[j]).None?
    ensures Parse(lines + extra) == Parse(lines)
    decreases |extra|
  {
    if |extra| == 0 {
      assert lines + extra == lines;
    } else {
      var init := extra[..|extra| - 1];
      assert (lines + extra)[..|lines + extra| - 1] == lines + init;
      ParseIgnoresTrailing(lines, init);
    }
  }
}

=== FILE: ordering.dfy ===
/** `sorted(games, key=lambda k: k['name'])` (listgames.py:40): a stable
    sort comparing names as Python compares strings. */
module Ordering {
  import opened Text
  import opened Seqs
  import opened ManifestParser

  /** A game is a manifest dict extended with its derived paths. */
  type Game = Manifest

  predicate AllNamed(s: seq<Game>)
  {
    forall g :: g in s ==> "name" in g
  }

  /** Non-decreasing by name, every pair of positions compared. */
  predicate SortedByName(s: seq<Game>)
    requires AllNamed(s)
  {
    forall i, j :: 0 <= i < j < |s| ==> StrLe(s[i]["name"], s[j]["name"])
  }

  /** Prepending a game no later by name than every element keeps the order. */
  lemma SortedCons(g: Game, s: seq<Game>)
    requires "name" in g && AllNamed(s) && SortedByName(s)
    requires forall x :: x in s ==> StrLe(g["name"], x["name"])
    ensures AllNamed([g] + s) && SortedByName([g] + s)
  {
  }

  /** Places `g` before the first element whose name is not smaller, so that
      `g` precedes the elements whose name equals its own. */
  function Insert(g: Game, s: seq<Game>): (r: seq<Game>)
    requires "name" in g && AllNamed(s) && SortedByName(s)
    ensures multiset(r) == multiset(s) + multiset{g}
    ensures AllNamed(r) && SortedByName(r)
    decreases |s|
  {
    if |s| == 0 then [g]
    else if StrLe(g["name"], s[0]["name"]) then
      InsertFront(g, s);
      [g] + s
    else
      var rest := Insert(g, s[1..]);
      InsertBehind(g, s, rest);
      [s[0]] + rest
  }

  lemma InsertFront(g: Game, s: seq<Game>)
    requires "name" in g && AllNamed(s) && SortedByName(s)
    requires |s| > 0 && StrLe(g["name"], s[0]["name"])
    ensures AllNamed([g] + s) && SortedByName([g] + s)
  {
    forall x | x in s ensures StrLe(g["name"], x["name"]) {
      var j :| 0 <= j < |s| && s[j] == x;
      if j > 0 {
        StrLeTrans(g["name"], s[0]["name"], s[j]["name"]);
      }
    }
    SortedCons(g, s);
  }

  lemma InsertBehind(g: Game, s: seq<Game>, rest: seq<Game>)
    requires "name" in g && AllNamed(s) && SortedByName(s) && |s| > 0
    requires !StrLe(g["name"], s[0]["name"])
    requires multiset(rest) == multiset(s[1..]) + multiset{g}
    requires AllNamed(rest) && SortedByName(rest)
    ensures multiset([s[0]] + rest) == multiset(s) + multiset{g}
    ensures AllNamed([s[0]] + rest) && SortedByName([s[0]] + rest)
  {
    assert s == [s[0]] + s[1..];
    StrLeTotal(g["name"], s[0]["name"]);
    forall x | x in rest ensures StrLe(s[0]["name"], x["name"]) {
      assert x in multiset(rest);
      if x != g {
        assert x in s[1..];
        var j :| 0 <= j < |s[1..]| && s[1..][j] == x;
        assert s[j + 1] == x;
      }
    }
    SortedCons(s[0], rest);
  }

  function SortByName(s: seq<Game>): (r: seq<Game>)
    requires AllNamed(s)
    ensures multiset(r) == multiset(s)
    ensures AllNamed(r) && SortedByName(r)
    decreases |s|
  {
    if |s| == 0 then []
    else
      assert s == [s[0]] + s[1..];
      Insert(s[0], SortByName(s[1..]))
  }

  /** Selects the games carrying the name `k`. */
  function NamedAs(k: string): Game -> bool
  {
    g => "name" in g && g["name"] == k
  }

  /** A game sorting strictly after another cannot share its name. */
  lemma NotBothNamed(g: Game, h: Game, k: string)
    requires "name" in g && "name" in h && !StrLe(g["name"], h["name"])
    ensures Filter([g], NamedAs(k)) == [] || Filter([h], NamedAs(k)) == []
  {
    StrLeRefl(g["name"]);
  }

  lemma {:induction false} FilterInsert(g: Game, s: seq<Game>, k: string)
    requires "name" in g && AllNamed(s) && SortedByName(s)
    ensures Filter(Insert(g, s), NamedAs(k)) == Filter([g], NamedAs(k)) + Filter(s, NamedAs(k))
    decreases |s|
  {
    if |s| == 0 {
    } else if StrLe(g["name"], s[0]["name"]) {
      FilterConcat([g], s, NamedAs(k));
    } else {
      FilterInsert(g, s[1..], k);
      NotBothNamed(g, s[0], k);
      assert Insert(g, s) == [s[0]] + Insert(g, s[1..]);
      assert s == [s[0]] + s[1..];
      FilterBehind(s[0], g, Insert(g, s[1..]), s[1..], NamedAs(k));
    }
  }

  /** Stability: for every name, the games carrying it appear in the sorted
      list in the same relative order as in the input. */
  lemma {:induction false} SortStable(s: seq<Game>, k: string)
    requires AllNamed(s)
    ensures Filter(SortByName(s), NamedAs(k)) == Filter(s, NamedAs(k))
    decreases |s|
  {
    if |s| > 0 {
      SortStable(s[1..], k);
      FilterInsert(s[0], SortByName(s[1..]), k);
      assert s == [s[0]] + s[1..];
      FilterConcat([s[0]], s[1..], NamedAs(k));
    }
  }
}

=== FILE: reconcile.dfy ===
/** The two passes of cleanfiles.py's main (lines 20-36) that decide what
    to offer for deletion: games whose install path does not exist (orphan
    manifests) and directories of the common directory that are no game's
    install path (orphan directories). The filesystem is a snapshot: the
    set of existing paths, the set of directory paths and the listing of
    the common directory. The prefix the listing is joined with is a
    parameter of its own, independent of the one the catalog used. */
module Reconcile {
  import opened Text
  import opened Seqs
  import opened Ordering
  import opened Catalog

  predicate AllInstalled(games: seq<Game>)
  {
    forall g :: g in games ==> "installdir" in g
  }

  /** Some game's install path is string-equal to `p` (the inner loop of
      cleanfiles.py:32-34, which ends in `break` on the first match). */
  predicate Claimed(games: seq<Game>, p: string)
    requires AllInstalled(games)
  {
    exists g :: g in games && g["installdir"] == p
  }

  /** The test of the first pass: the install path does not exist. */
  function Missing(existing: set<string>): Game -> bool
  {
    g => "installdir" in g && g["installdir"] !in existing
  }

  /** The test of the second pass: a directory no game claims. */
  function Unclaimed(games: seq<Game>, dirs: set<string>): string -> bool
    requires AllInstalled(games)
  {
    p => p in dirs && !Claimed(games, p)
  }

  /** First pass (cleanfiles.py:23-25). */
  function OrphanManifests(games: seq<Game>, existing: set<string>): (r: seq<Game>)
    requires AllInstalled(games)
    ensures forall g :: g in r <==> g in games && g["installdir"] !in existing
    ensures IsSubsequence(r, games)
  {
    Filter(games, Missing(existing))
  }

  /** The listing joined onto `common`, in listing order
      (cleanfiles.py:29-30). */
  function Paths(common: string, entries: seq<string>): seq<string>
  {
    Apply(entries, Under(common))
  }

  /** Second pass (cleanfiles.py:28-36): joined listing entries that are
      directories and equal no game's install path, in listing order. */
  function OrphanDirectories(games: seq<Game>, common: string, entries: seq<string>, dirs: set<string>)
    : (r: seq<string>)
    requires AllInstalled(games)
    ensures forall p :: p in r <==> p in Paths(common, entries) && p in dirs && !Claimed(games, p)
    ensures IsSubsequence(r, Paths(common, entries))
  {
    Filter(Paths(common, entries), Unclaimed(games, dirs))
  }

  /** A listing entry is flagged exactly when its joined path is a
      directory that no game claims; entries that are not directories are
      never flagged. */
  lemma FlaggedEntry(games: seq<Game>, common: string, entries: seq<string>, dirs: set<string>, i: nat)
    requires AllInstalled(games) && i < |entries|
    ensures Join(common, entries[i]) in OrphanDirectories(games, common, entries, dirs) <==>
      Join(common, entries[i]) in dirs && !Claimed(games, Join(common, entries[i]))
  {
    assert Paths(common, entries)[i] == Join(common, entries[i]);
  }

  /** No path is both the install path of an orphan manifest and an orphan
      directory. */
  lemma OrphansDisjoint(games: seq<Game>, existing: set<string>, common: string, entries: seq<string>, dirs: set<string>)
    requires AllInstalled(games)
    ensures forall g :: g in OrphanManifests(games, existing) ==>
      g["installdir"] !in OrphanDirectories(games, common, entries, dirs)
  {
  }

  /** When every install path exists and every directory in the listing is
      some game's install path, nothing is flagged. */
  lemma NothingFlaggedWhenConsistent(games: seq<Game>, existing: set<string>, common: string,
                                     entries: seq<string>, dirs: set<string>)
    requires AllInstalled(games)
    requires forall g :: g in games ==> g["installdir"] in existing
    requires forall e :: e in entries && Join(common, e) in dirs ==> Claimed(games, Join(common, e))
    ensures OrphanManifests(games, existing) == []
    ensures OrphanDirectories(games, common, entries, dirs) == []
  {
    FilterNone(games, Missing(existing));
    forall p | p in Paths(common, entries) ensures !Unclaimed(games, dirs)(p) {
      var i :| 0 <= i < |entries| && Paths(common, entries)[i] == p;
      assert entries[i] in entries;
    }
    FilterNone(Paths(common, entries), Unclaimed(games, dirs));
  }

  /** When the listing is joined onto a different directory than the one
      every install path lives in, no install path can match: every entry
      that is a directory is flagged. */
  lemma MismatchedPrefixFlagsAll(games: seq<Game>, catalogCommon: string, common: string,
                                 entries: seq<string>, dirs: set<string>)
    requires AllInstalled(games)
    requires catalogCommon != common && |common| > 0 && common[|common| - 1] != '/'
    requires forall g :: g in games ==> DirectChild(catalogCommon, g["installdir"])
    requires forall e :: e in entries ==> '/' !in e
    ensures OrphanDirectories(games, common, entries, dirs) == Filter(Paths(common, entries), p => p in dirs)
  {
    forall p | p in Paths(common, entries) ensures !Claimed(games, p) {
      var i :| 0 <= i < |entries| && Paths(common, entries)[i] == p;
      assert entries[i] in entries;
      JoinDirectChild(common, entries[i]);
      if g :| g in games && g["installdir"] == p {
        DirectChildUnique(catalogCommon, common, p);
      }
    }
    FilterSame(Paths(common, entries), Unclaimed(games, dirs), p => p in dirs);
  }
}

=== FILE: search.dfy ===
/** The `--search` filter of listgames.py's main (lines 84-89): a game is
    kept when the lower-cased query occurs in its lower-cased name, or
    else when the query occurs in its app id. `or` short-circuits, so the
    app id is only looked up (and a missing one only raises KeyError) when
    the name does not match. */
module SearchFilter {
  import opened Wrappers
  import opened Text
  import opened Seqs
  import opened Ordering
  import opened Catalog

  /** The condition of listgames.py:87 for one game. */
  function Test(query: string, g: Game): (r: Result<bool, Error>)
    ensures r.Failure? <==> "name" !in g || (!Contains(Lower(g["name"]), Lower(query)) && "appid" !in g)
    ensures r == Success(true) <==>
      "name" in g && (Contains(Lower(g["name"]), Lower(query)) || ("appid" in g && Contains(g["appid"], query)))
    ensures r.Failure? ==> r.error == if "name" in g then MissingKey("appid") else MissingKey("name")
  {
    if "name" !in g then Failure(MissingKey("name"))
    else if Contains(Lower(g["name"]), Lower(query)) then Success(true)
    else if "appid" !in g then Failure(MissingKey("appid"))
    else Success(Contains(g["appid"], query))
  }

  function Selected(query: string): Game -> bool
  {
    g => Test(query, g) == Success(true)
  }

  /** The games the search keeps, in catalog order, or the KeyError of the
      first game whose test raises. */
  function Search(games: seq<Game>, query: string): (r: Result<seq<Game>, Error>)
    ensures r.Success? <==> forall i :: 0 <= i < |games| ==> Test(query, games[i]).Success?
    ensures r.Success? ==> r.value == Filter(games, Selected(query))
    ensures r.Failure? ==> exists i :: 0 <= i < |games| && Test(query, games[i]) == Failure(r.error) &&
                                       forall j :: 0 <= j < i ==> Test(query, games[j]).Success?
    ensures r.Failure? ==> r.error in {MissingKey("name"), MissingKey("appid")}
    decreases |games|
  {
    if |games| == 0 then Success([])
    else match Test(query, games[0])
      case Failure(e) => Failure(e)
      case Success(keep) =>
        assert forall i :: 1 <= i < |games| ==> games[i] == games[1..][i - 1];
        match Search(games[1..], query)
        case Failure(e) =>
          var i :| 0 <= i < |games[1..]| && Test(query, games[1..][i]) == Failure(e) &&
                   forall j :: 0 <= j < i ==> Test(query, games[1..][j]).Success?;
          assert Test(query, games[i + 1]) == Failure(e);
          Failure(e)
        case Success(rest) => Success(if keep then [games[0]] + rest else rest)
  }

  /** A successful search keeps exactly the matching games, as an
      order-preserving subsequence of the catalog. */
  lemma SearchKeepsMatches(games: seq<Game>, query: string, g: Game)
    requires Search(games, query).Success?
    ensures g in Search(games, query).value <==>
      g in games && (Contains(Lower(g["name"]), Lower(query)) || Contains(g["appid"], query))
    ensures IsSubsequence(Search(games, query).value, games)
  {
  }

  /** With every game carrying a name, the empty query keeps the whole
      catalog, even games without an app id. */
  lemma EmptyQueryKeepsAll(games: seq<Game>)
    requires AllNamed(games)
    ensures Search(games, "") == Success(games)
  {
    assert Lower("") == "";
    forall g | g in games ensures Selected("")(g) {
      assert StartsWith(Lower(g["name"]), "");
    }
    FilterAll(games, Selected(""));
  }

  /** On a catalog of "Half-Life 2" (220) and "Portal" (400), "half" finds
      only the first. */
  lemma SearchByNameExample()
    ensures
      var hl2 := map["name" := "Half-Life 2", "appid" := "220"];
      var portal := map["name" := "Portal", "appid" := "400"];
      Search([hl2, portal], "half") == Success([hl2])
  {
    var hl2 := map["name" := "Half-Life 2", "appid" := "220"];
    var portal := map["name" := "Portal", "appid" := "400"];
    NameTests(hl2, portal);
    SearchTwo(hl2, portal, "half");
    assert [hl2] + [] == [hl2];
  }

  /** On the same catalog, "400" finds only "Portal". */
  lemma SearchByAppIdExample()
    ensures
      var hl2 := map["name" := "Half-Life 2", "appid" := "220"];
      var portal := map["name" := "Portal", "appid" := "400"];
      Search([hl2, portal], "400") == Success([portal])
  {
    var hl2 := map["name" := "Half-Life 2", "appid" := "220"];
    var portal := map["name" := "Portal", "appid" := "400"];
    AppIdTests(hl2, portal);
    SearchTwo(hl2, portal, "400");
    assert [] + [portal] == [portal];
  }

  lemma NameTests(hl2: Game, portal: Game)
    requires hl2 == map["name" := "Half-Life 2", "appid" := "220"]
    requires portal == map["name" := "Portal", "appid" := "400"]
    ensures Test("half", hl2) == Success(true) && Test("half", portal) == Success(false)
  {
    NameFacts();
    HalfFacts();
    assert hl2["name"] == "Half-Life 2";
    assert portal["name"] == "Portal" && portal["appid"] == "400";
  }

  lemma AppIdTests(hl2: Game, portal: Game)
    requires hl2 == map["name" := "Half-Life 2", "appid" := "220"]
    requires portal == map["name" := "Portal", "appid" := "400"]
    ensures Test("400", hl2) == Success(false) && Test("400", portal) == Success(true)
  {
    NameFacts();
    No400("half-life 2");
    No400("portal");
    No400("220");
    SelfContained("400");
    assert hl2["name"] == "Half-Life 2" && hl2["appid"] == "220";
    assert portal["name"] == "Portal" && portal["appid"] == "400";
  }

  lemma SearchTwo(a: Game, b: Game, query: string)
    requires Test(query, a).Success? && Test(query, b).Success?
    ensures Search([a, b], query) ==
      Success((if Test(query, a).value then [a] else []) + (if Test(query, b).value then [b] else []))
  {
    assert [b][1..] == [];
    assert [b] + [] == [b];
    assert Search([], query) == Success([]);
    assert Search([b], query) == Success(if Test(query, b).value then [b] else []);
    assert [a, b][1..] == [b];
    var rb := if Test(query, b).value then [b] else [];
    assert Search([a, b], query) == Success(if Test(query, a).value then [a] + rb else rb);
    assert [] + rb == rb;
  }

  lemma NameFacts()
    ensures Lower("Half-Life 2") == "half-life 2" && Lower("Portal") == "portal"
    ensures Lower("half") == "half" && Lower("400") == "400"
  {
  }

  lemma NotIn(hay: string, needle: string)
    requires |needle| > 0 && forall i :: 0 <= i < |hay| ==> hay[i] != needle[0]
    ensures !Contains(hay, needle)
  {
    ContainsIff(hay, needle);
    forall i | 0 <= i && i + |needle| <= |hay| ensures !OccursAt(hay, needle, i) {
      assert hay[i..i + |needle|][0] == hay[i];
    }
  }

  lemma HalfFacts()
    ensures Contains("half-life 2", "half") && !Contains("portal", "half")
    ensures !Contains("220", "half") && !Contains("400", "half")
  {
    assert StartsWith("half-life 2", "half");
    NotIn("portal", "half");
    NotIn("220", "half");
    NotIn("400", "half");
  }

  lemma SelfContained(s: string)
    ensures Contains(s, s)
  {
    assert StartsWith(s, s);
  }

  /** The app-id query "400" occurs in neither example name nor in "220". */
  lemma No400(hay: string)
    requires hay == "half-life 2" || hay == "portal" || hay == "220"
    ensures !Contains(hay, "400")
  {
    if hay == "half-life 2" {
      NotIn("half-life 2", "400");
    } else if hay == "portal" {
      NotIn("portal", "400");
    } else {
      NotIn("220", "400");
    }
  }
}

=== FILE: seqs.dfy ===
/** Order-preserving selection over sequences, the shape of every
    "loop and append the matching items" in the tools. */
module Seqs {

  /** `a` can be obtained from `b` by deleting elements (greedy matching is
      complete for this). */
  predicate IsSubsequence<T(==,!new)>(a: seq<T>, b: seq<T>)
    decreases |b|
  {
    |a| == 0 ||
    (|b| > 0 && if a[0] == b[0] then IsSubsequence(a[1..], b[1..]) else IsSubsequence(a, b[1..]))
  }

  /** The items of `s` satisfying `p`, in their original order. */
  function Filter<T(==,!new)>(s: seq<T>, p: T -> bool): (r: seq<T>)
    ensures |r| <= |s|
    ensures forall x :: x in r <==> x in s && p(x)
    ensures IsSubsequence(r, s)
    decreases |s|
  {
    if |s| == 0 then []
    else
      var rest := Filter(s[1..], p);
      assert forall x :: x in s <==> x == s[0] || x in s[1..];
      if p(s[0]) then [s[0]] + rest else rest
  }

  /** Every passing item is kept as many times as it occurs in `s`, and no
      failing item is kept; with `IsSubsequence` this fixes `Filter`'s
      result. */
  lemma {:induction false} FilterCount<T(!new)>(s: seq<T>, p: T -> bool, x: T)
    ensures multiset(Filter(s, p))[x] == if p(x) then multiset(s)[x] else 0
    decreases |s|
  {
    if |s| > 0 {
      FilterCount(s[1..], p, x);
      assert s == [s[0]] + s[1..];
      assert multiset(s)[x] == multiset([s[0]])[x] + multiset(s[1..])[x];
    }
  }

  /** `f` applied to every item, in order. */
  function Apply<A, B>(s: seq<A>, f: A -> B): seq<B>
  {
    seq(|s|, i requires 0 <= i < |s| => f(s[i]))
  }

  /** The items of `Apply(s, f)` are exactly the images of the items of `s`. */
  lemma ApplyMembers<A(!new), B(!new)>(s: seq<A>, f: A -> B)
    ensures |Apply(s, f)| == |s|
    ensures forall y :: y in Apply(s, f) <==> exists x :: x in s && y == f(x)
  {
    var r := Apply(s, f);
    forall y | y in r ensures exists x :: x in s && y == f(x) {
      var i :| 0 <= i < |r| && r[i] == y;
      assert s[i] in s;
    }
    forall x | x in s ensures f(x) in r {
      var i :| 0 <= i < |s| && s[i] == x;
      assert r[i] == f(x);
    }
  }

  /** Applying a function to both sides keeps a subsequence one. */
  lemma {:induction false} SubsequenceApply<A(!new), B(!new)>(a: seq<A>, b: seq<A>, f: A -> B)
    requires IsSubsequence(a, b)
    ensures IsSubsequence(Apply(a, f), Apply(b, f))
    decreases |b|
  {
    if |a| > 0 {
      assert Apply(b, f) == [f(b[0])] + Apply(b[1..], f);
      if a[0] == b[0] {
        SubsequenceApply(a[1..], b[1..], f);
        assert Apply(a, f) == [f(a[0])] + Apply(a[1..], f);
        assert Apply(a, f)[1..] == Apply(a[1..], f);
      } else {
        SubsequenceApply(a, b[1..], f);
        SubsequenceCons(Apply(a, f), f(b[0]), Apply(b[1..], f));
      }
    }
  }

  lemma {:induction false} FilterAll<T(!new)>(s: seq<T>, p: T -> bool)
    requires forall x :: x in s ==> p(x)
    ensures Filter(s, p) == s
    decreases |s|
  {
    if |s| > 0 {
      assert forall x :: x in s[1..] ==> x in s;
      FilterAll(s[1..], p);
    }
  }

  lemma FilterConcat<T(!new)>(a: seq<T>, b: seq<T>, p: T -> bool)
    ensures Filter(a + b, p) == Filter(a, p) + Filter(b, p)
    decreases |a|
  {
    if |a| > 0 {
      assert (a + b)[1..] == a[1..] + b;
      FilterConcat(a[1..], b, p);
    } else {
      assert a + b == b;
    }
  }

  /** Two tests that agree on every element select the same items. */
  lemma {:induction false} FilterSame<T(!new)>(s: seq<T>, p: T -> bool, q: T -> bool)
    requires forall x :: x in s ==> p(x) == q(x)
    ensures Filter(s, p) == Filter(s, q)
    decreases |s|
  {
    if |s| > 0 {
      assert forall x :: x in s[1..] ==> x in s;
      FilterSame(s[1..], p, q);
    }
  }

  /** A test no element passes selects nothing. */
  lemma {:induction false} FilterNone<T(!new)>(s: seq<T>, p: T -> bool)
    requires forall x :: x in s ==> !p(x)
    ensures Filter(s, p) == []
    decreases |s|
  {
    if |s| > 0 {
      assert forall x :: x in s[1..] ==> x in s;
      FilterNone(s[1..], p);
    }
  }

  /** Putting `g` behind `h` does not reorder what a filter keeps when the
      filter keeps at most one of them. */
  lemma FilterBehind<T(!new)>(h: T, g: T, rest: seq<T>, tail: seq<T>, p: T -> bool)
    requires Filter([g], p) == [] || Filter([h], p) == []
    requires Filter(rest, p) == Filter([g], p) + Filter(tail, p)
    ensures Filter([h] + rest, p) == Filter([g], p) + Filter([h] + tail, p)
  {
    FilterConcat([h], rest, p);
    FilterConcat([h], tail, p);
    var a, b, c := Filter([g], p), Filter([h], p), Filter(tail, p);
    assert b + (a + c) == a + (b + c);
  }

  /** A subsequence of `b` stays one when an element is put in front of `b`. */
  lemma {:induction false} SubsequenceCons<T(!new)>(a: seq<T>, x: T, b: seq<T>)
    requires IsSubsequence(a, b)
    ensures IsSubsequence(a, [x] + b)
    decreases |b|, 1
  {
    assert ([x] + b)[1..] == b;
    if |a| > 0 && a[0] == x {
      SubsequenceTail(a, b);
    }
  }

  /** Dropping the first element of a subsequence keeps it a subsequence. */
  lemma {:induction false} SubsequenceTail<T(!new)>(a: seq<T>, b: seq<T>)
    requires |a| > 0 && IsSubsequence(a, b)
    ensures IsSubsequence(a[1..], b)
    decreases |b|, 0
  {
    assert b == [b[0]] + b[1..];
    if a[0] == b[0] {
      SubsequenceCons(a[1..], b[0], b[1..]);
    } else {
      SubsequenceTail(a, b[1..]);
      SubsequenceCons(a[1..], b[0], b[1..]);
    }
  }
}

=== FILE: text.dfy ===
/** String helpers standing in for the Python `str` operations and the
    `posixpath` functions the tools use. Strings are `seq<char>`. */
module Text {

  /** ASCII lower-casing of one character; every other character is kept. */
  function LowerChar(c: char): char
  {
    if 'A' <= c <= 'Z' then (c as int + 32) as char else c
  }

  /** `s.lower()`, restricted to ASCII letters: no capital survives, every
      other character is kept, and a capital becomes the small letter at the
      same place in the alphabet. */
  function Lower(s: string): (r: string)
    ensures |r| == |s|
    ensures forall i :: 0 <= i < |r| ==> !('A' <= r[i] <= 'Z')
    ensures forall i :: 0 <= i < |s| && !('A' <= s[i] <= 'Z') ==> r[i] == s[i]
    ensures forall i :: 0 <= i < |s| && 'A' <= s[i] <= 'Z' ==>
      r[i] == "abcdefghijklmnopqrstuvwxyz"[s[i] as int - 'A' as int]
  {
    seq(|s|, i requires 0 <= i < |s| => LowerChar(s[i]))
  }

  /** Lower-casing twice is lower-casing once. */
  lemma LowerIdempotent(s: string)
    ensures Lower(Lower(s)) == Lower(s)
  {
  }

  predicate StartsWith(s: string, prefix: string)
  {
    |prefix| <= |s| && s[..|prefix|] == prefix
  }

  predicate EndsWith(s: string, suffix: string)
  {
    |suffix| <= |s| && s[|s| - |suffix|..] == suffix
  }

  /** `needle` occurs in `hay` starting at index `i`. */
  ghost predicate OccursAt(hay: string, needle: string, i: int)
  {
    0 <= i && i + |needle| <= |hay| && hay[i..i + |needle|] == needle
  }

  /** Python's `needle in hay` for strings; the empty string occurs everywhere. */
  predicate Contains(hay: string, needle: string)
    decreases |hay|
  {
    StartsWith(hay, needle) || (|hay| > 0 && Contains(hay[1..], needle))
  }

  /** The scanning definition of `Contains` agrees with "occurs at some index". */
  lemma {:induction false} ContainsIff(hay: string, needle: string)
    ensures Contains(hay, needle) <==> exists i :: OccursAt(hay, needle, i)
    decreases |hay|
  {
    if StartsWith(hay, needle) {
      assert OccursAt(hay, needle, 0);
    } else if |hay| > 0 {
      ContainsIff(hay[1..], needle);
      if Contains(hay[1..], needle) {
        var i :| OccursAt(hay[1..], needle, i);
        assert hay[1..][i..i + |needle|] == hay[i + 1..i + 1 + |needle|];
        assert OccursAt(hay, needle, i + 1);
      }
      if i :| OccursAt(hay, needle, i) {
        assert i != 0;
        assert hay[1..][i - 1..i - 1 + |needle|] == hay[i..i + |needle|];
        assert OccursAt(hay[1..], needle, i - 1);
      }
    }
  }

  /** `os.path.join(a, b)` for two arguments, as `posixpath.join` computes it:
      an absolute `b` replaces `a`, and no separator is added after an empty
      `a` or one that already ends in `/`. */
  function Join(a: string, b: string): (r: string)
    ensures |b| > 0 && b[0] == '/' ==> r == b
    ensures !(|b| > 0 && b[0] == '/') ==> StartsWith(r, a) && EndsWith(r, b)
  {
    if |b| > 0 && b[0] == '/' then b
    else if |a| == 0 || a[|a| - 1] == '/' then a + b
    else a + "/" + b
  }

  /** Joining onto `dir`, as a function of the second part. */
  function Under(dir: string): string -> string
  {
    name => Join(dir, name)
  }

  /** `p` names an entry directly inside directory `dir`: `dir`, one separator,
      then a name without separators. */
  predicate DirectChild(dir: string, p: string)
  {
    |dir| < |p| && p[..|dir|] == dir && p[|dir|] == '/' && '/' !in p[|dir| + 1..]
  }

  /** Joining a plain name onto a directory path without a trailing separator
      yields a direct child of that directory. */
  lemma JoinDirectChild(dir: string, name: string)
    requires |dir| > 0 && dir[|dir| - 1] != '/'
    requires '/' !in name
    ensures Join(dir, name) == dir + "/" + name
    ensures DirectChild(dir, Join(dir, name))
  {
  }

  /** A path is a direct child of at most one directory. */
  lemma DirectChildUnique(dir1: string, dir2: string, p: string)
    requires DirectChild(dir1, p) && DirectChild(dir2, p)
    ensures dir1 == dir2
  {
  }

  /** Python's `a <= b` on strings: lexicographic by code point, a proper
      prefix sorting first. */
  predicate StrLe(a: string, b: string)
    decreases |a|
  {
    |a| == 0 || (|b| > 0 && (a[0] < b[0] || (a[0] == b[0] && StrLe(a[1..], b[1..]))))
  }

  lemma {:induction false} StrLeRefl(a: string)
    ensures StrLe(a, a)
    decreases |a|
  {
    if |a| > 0 {
      StrLeRefl(a[1..]);
    }
  }

  lemma {:induction false} StrLeTotal(a: string, b: string)
    ensures StrLe(a, b) || StrLe(b, a)
    decreases |a|
  {
    if |a| > 0 && |b| > 0 && a[0] == b[0] {
      StrLeTotal(a[1..], b[1..]);
    }
  }

  lemma {:induction false} StrLeTrans(a: string, b: string, c: string)
    requires StrLe(a, b) && StrLe(b, c)
    ensures StrLe(a, c)
    decreases |a|
  {
    if |a| > 0 && a[0] == b[0] && b[0] == c[0] {
      StrLeTrans(a[1..], b[1..], c[1..]);
    }
  }
}

=== FILE: tokenizer.dfy ===
/** The quoted-string scan `re.findall(r'"(.*?)"', line)` used on every
    manifest line (listgames.py:30). In the pattern, `.` matches any
    character except a line feed, so a token cannot span a line feed; when an
    opening quote finds no closing quote first, the scan resumes just after
    that opening quote. */
module Tokenizer {
  import opened Wrappers

  /** Index of the first `"` at or after `k`, provided no line feed comes
      before it; `None` when a line feed or the end of the line comes first. */
  function CloseFrom(s: string, k: nat): (r: Option<nat>)
    requires k <= |s|
    ensures r.Some? ==> k <= r.value < |s| && s[r.value] == '"'
    ensures r.Some? ==> forall j :: k <= j < r.value ==> s[j] != '"' && s[j] != '\n'
    ensures r.None? ==> forall j :: k <= j < |s| && s[j] == '"' ==> '\n' in s[k..j]
    decreases |s| - k
  {
    if k == |s| then None
    else if s[k] == '"' then Some(k)
    else if s[k] == '\n' then None
    else
      var r := CloseFrom(s, k + 1);
      assert forall j :: k + 1 <= j <= |s| ==> s[k..j] == [s[k]] + s[k + 1..j];
      r
  }

  /** The strings captured by `"(.*?)"`, left to right. */
  function Tokens(s: string): (r: seq<string>)
    ensures forall t :: t in r ==> '"' !in t && '\n' !in t
    decreases |s|
  {
    if |s| == 0 then []
    else if s[0] != '"' then Tokens(s[1..])
    else match CloseFrom(s, 1)
      case Some(j) => [s[1..j]] + Tokens(s[j + 1..])
      case None => Tokens(s[1..])
  }

  /** Number of double-quote characters in `s`. */
  function Quotes(s: string): nat
  {
    multiset(s)['"']
  }

  /** A line as Python's text-mode file iteration yields it: a line feed can
      only be its last character. */
  predicate IsLine(s: string)
  {
    forall i :: 0 <= i < |s| - 1 ==> s[i] != '\n'
  }

  lemma QuotesHead(s: string)
    requires |s| > 0
    ensures Quotes(s) == (if s[0] == '"' then 1 else 0) + Quotes(s[1..])
  {
    assert s == [s[0]] + s[1..];
  }

  lemma QuotesPair(s: string, j: nat)
    requires 0 < j < |s| && s[0] == '"' && s[j] == '"' && '"' !in s[1..j]
    ensures Quotes(s) == 2 + Quotes(s[j + 1..])
  {
    assert s == [s[0]] + s[1..j] + [s[j]] + s[j + 1..];
  }

  /** On a line, k quote characters yield exactly k/2 tokens, rounded
      down. */
  lemma {:induction false} TokenCount(s: string)
    requires IsLine(s)
    ensures |Tokens(s)| == Quotes(s) / 2
    decreases |s|
  {
    if |s| > 0 {
      QuotesHead(s);
      if s[0] != '"' {
        TokenCount(s[1..]);
      } else {
        match CloseFrom(s, 1)
        case Some(j) =>
          QuotesPair(s, j);
          TokenCount(s[j + 1..]);
        case None =>
          assert '"' !in s[1..];
          TokenCount(s[1..]);
      }
    }
  }

  /** Characters without a quote in front of a line never add tokens. */
  lemma {:induction false} SkipUnquoted(prefix: string, s: string)
    requires '"' !in prefix
    ensures Tokens(prefix + s) == Tokens(s)
    decreases |prefix|
  {
    if |prefix| > 0 {
      assert (prefix + s)[0] == prefix[0];
      assert (prefix + s)[1..] == prefix[1..] + s;
      SkipUnquoted(prefix[1..], s);
    } else {
      assert prefix + s == s;
    }
  }

  lemma CloseAtFirstQuote(s: string, k: nat, j: nat)
    requires k <= j < |s| && s[j] == '"'
    requires forall i :: k <= i < j ==> s[i] != '"' && s[i] != '\n'
    ensures CloseFrom(s, k) == Some(j)
  {
  }

  /** A quoted token followed by anything is captured whole. */
  lemma {:induction false} QuotedToken(t: string, rest: string)
    requires '"' !in t && '\n' !in t
    ensures Tokens("\"" + t + "\"" + rest) == [t] + Tokens(rest)
  {
    var s := "\"" + t + "\"" + rest;
    CloseAtFirstQuote(s, 1, |t| + 1);
    assert s[1..|t| + 1] == t;
    assert s[|t| + 2..] == rest;
  }

  /** A manifest leaf line: indentation, the quoted key, a tab separator,
      the quoted value, a line feed. */
  function Render(indent: string, key: string, value: string): string
  {
    indent + "\"" + key + "\"\t\t\"" + value + "\"\n"
  }

  /** Scanning a rendered leaf line gives back exactly its key and value. */
  lemma RenderRoundTrip(indent: string, key: string, value: string)
    requires '"' !in indent
    requires '"' !in key && '\n' !in key
    requires '"' !in value && '\n' !in value
    ensures Tokens(Render(indent, key, value)) == [key, value]
  {
    var tail := "\"" + value + "\"" + "\n";
    var mid := "\"" + key + "\"" + ("\t\t" + tail);
    assert Render(indent, key, value) == indent + mid;
    SkipUnquoted(indent, mid);
    QuotedToken(key, "\t\t" + tail);
    SkipUnquoted("\t\t", tail);
    QuotedToken(value, "\n");
    SkipUnquoted("\n", []);
    assert "\n" + [] == "\n";
  }
}

=== FILE: wrappers.dfy ===
/** Failure-carrying datatypes used across the model: Python's exceptions
    (KeyError, ValueError, OSError) become the Failure case of a Result. */
module Wrappers {

  datatype Option<+T> = None | Some(value: T)

  datatype Result<+T, +E> = Success(value: T) | Failure(error: E)
}
